=== FILE: README.md ===
# Safe-mine progression model

A Dafny model of the per-user state logic of the Safe-mine Telegram bot
(`bot.py` and `app.py`). The modelled lines, 91-501, are the same in both
files except for the referral-link URL text at lines 337 and 453. The files
also differ in their start-up code from line 549 on, which is not modelled.
The bot shows each user a fabricated "mining" balance. It does no mining and
makes no payments. Its only state is one record per user, kept in a map
from user id to record. This model covers:

- **the record store** (`UserRecords`, `ProgressionStore`): the `Record`
  datatype, a `map<string, Record>` store, and get-or-create. Get-or-create
  inserts the default record for an unknown id and otherwise returns the
  stored record unchanged.
- **the earnings formula** (`Earnings`): `min(10 + hours * rate + 2 * referrals, 999.99)`.
  Here `hours = seconds / 3600` and `rate` is `8.5 * 1.2` for an active
  record, `8.5` otherwise. Python floats are idealised as exact reals.
- **the handlers** (`Handlers`): `calculate_earnings`, `update_user_activity`,
  `check_channel_membership`, and `/start`, `/balance`, `/withdraw` and
  `/referral`. Also the `add_referral` and `check_membership` buttons and the
  inline-button dispatcher. Each handler is modelled by its effect on the
  store and the decision it takes. "Now" is an explicit parameter.
- **whole runs** (`Progression`): the bot as a transition system over
  sequences of (user, instant, command) events. It proves three things. Every
  record only evolves: counters grow, and the activity and gate flags never
  switch off. When the clock never goes backwards, every record the bot
  builds from an empty store stays well formed. And over a run whose clock
  never goes backwards, no cached balance drops.

The withdrawal flow is modelled only as far as its state goes. It counts the
attempt. Below 100 it reports the shortfall. Otherwise its only "outcome"
is a demand for an up-front fee (`FeeDemand`), and no payout exists anywhere
in the code.

Points of the code's behaviour worth stating:

- Elapsed time is **not** clamped at zero (bot.py:115). A clock behind a
  record's start gives earnings below 10 (`Earnings.NegativeElapsedTimeNotClamped`).
  Monotonicity in hours, in referrals and in the clock holds for all inputs,
  because the rate is positive. The activity-bonus comparison, the lower
  bound of 10 and the whole-run validity results need non-negative hours or
  a clock that does not go backwards.
- The cap is 999.99 (bot.py:124).
- The gate opens when the press count is `>= 2`. Presses after that still
  increment the count, so a third press gives a count of 3, and the gate
  stays open.
- Passing the gate changes no balance. The "welcome bonus" exists only in
  the message text.
- `/balance` computes the earnings with the activity flag as it was, then
  marks the user active and caches those earnings as `balance`.

## Model

| member | source | states |
|---|---|---|
| `ProgressionStore.GetUserData` | bot.py:91-105 | a missing id gets balance 10.0, both timestamps `now`, active, 0 withdrawals, 0 referrals, gate closed, no gate presses; an existing id returns its stored record and the store is unchanged; no other user is touched |
| `ProgressionStore.GetUserDataIdempotent` | app.py:91-105 | a second get-or-create, at any instant, returns the same record and store as the first |
| `Earnings.HoursBetween` | bot.py:115 | hours times 3600 equal the elapsed seconds; hours are non-negative exactly when `now` is not before the start |
| `Earnings.HourlyRate` | bot.py:117-119 | the rate is 10.2 for an active record and 8.5 otherwise: at least 8.5, and above 8.5 exactly when active |
| `Earnings.EarningsFor` | bot.py:122-124 | the result never exceeds 999.99, never exceeds the uncapped sum, and equals one of the two |
| `Earnings.EarningsMonotoneInHours` | bot.py:115-122 | more elapsed hours never give lower earnings |
| `Earnings.EarningsMonotoneInReferrals` | bot.py:121-122 | more referrals never give lower earnings |
| `Earnings.OneReferralAddsBonus` | app.py:121-124 | below the cap, one extra referral adds exactly 2 |
| `Earnings.ActiveEarnsAtLeastInactive` | bot.py:117-119 | with non-negative hours and equal referrals, active earnings are at least inactive earnings |
| `Earnings.ActiveEarnsStrictlyMore` | app.py:117-122 | with positive hours and inactive earnings below the cap, active earnings are strictly greater |
| `Earnings.EarningsAtLeastWelcome` | app.py:115-124 | when the clock is not behind the start, earnings are at least 10 |
| `Earnings.RecordEarningsMonotone` | bot.py:111-124 | a record's earnings never decrease as the clock advances |
| `Earnings.NegativeElapsedTimeNotClamped` | app.py:115 | a start one hour in the future gives earnings of -0.2, below 10: no clamp |
| `Earnings.ElevenActiveHoursReachMinimum` | bot.py:266-271 | 11 active hours with no referrals give 122.2, at or above the withdrawal minimum |
| `Earnings.OneActiveHourBelowMinimum` | app.py:266-271 | 1 active hour with no referrals gives 20.2, below the withdrawal minimum |
| `Handlers.CalculateEarnings` | bot.py:111-124 | get-or-create runs first; the result is the capped earnings of that record and at most 999.99; a first-time user sees exactly 10.0 |
| `Handlers.UpdateUserActivity` | bot.py:126-131 | sets active and `lastUpdate := now`; every other field and every other user is unchanged |
| `Handlers.CheckChannelMembership` | bot.py:133-139 | true exactly when a stored record has `channel_joined` true; an absent flag or a new user reads as false; only get-or-create touches the store |
| `Handlers.StartCommand` | bot.py:149-180 | the dashboard is shown iff the gate is open, and only then is the user marked active; otherwise the record is as get-or-create left it |
| `Handlers.BalanceCommand` | app.py:227-253 | the shown balance is the earnings with the old activity flag; it is cached as `balance`, the user is marked active, nothing else changes; the withdraw button is offered iff the balance is at least 100 |
| `Handlers.WithdrawCommand` | bot.py:266-284 | `withdrawal_attempts` rises by exactly 1 on every call, eligible or not, and nothing else changes; the request is turned away iff earnings are below 100, with a positive shortfall that brings them to 100; otherwise the fee demand shows those earnings |
| `Handlers.ReferralCommand` | bot.py:321-328 | reports the stored referral count (0 for a new user) and changes nothing beyond get-or-create |
| `Handlers.AddReferral` | bot.py:406-409 | `referrals` becomes the old count plus 1, absent read as 0; no other field changes |
| `Handlers.CheckMembership` | bot.py:463-471 | the press count becomes old plus 1, absent read as 0; confirmed iff the new count is at least 2, which sets `channel_joined`; below 2 the flag is unchanged; an open gate stays open; no other field changes |
| `Handlers.ButtonCallback` | bot.py:382-501 | the six store-touching payloads change only the presser's record; every other payload (fee, copy-link, unknown) leaves the store unchanged |
| `Handlers.ButtonCallbackDispatch` | app.py:388-501 | each store-touching payload runs its own handler: add_referral adds one referral, check_membership adds one gate press and opens the gate once the count reaches 2, changing no other field, boost_earnings only marks the user active at `now`, the balance buttons cache the current earnings and mark the user active, changing no other field, referral leaves the record as get-or-create returns it |
| `Handlers.GateOpensOnSecondPress` | app.py:463-471 | from no presses: one press leaves the gate closed, the second opens it, the third keeps it open with count 3 |
| `Progression.StepGrows` | app.py:144-501 | one event of any kind keeps every user, keeps `start_time`, never lowers a counter, and never switches `is_active` or `channel_joined` off |
| `Progression.RunGrows` | bot.py:144-501 | the same holds over any sequence of events, including ineligible withdrawals |
| `Progression.StepKeepsValid` | bot.py:144-501 | with a clock that does not go backwards, every handler keeps each record active, the gate open exactly after two presses, and the cached balance between 10 and the recomputed earnings |
| `Progression.RunKeepsValid` | app.py:144-501 | that well-formedness is kept over any chronological run |
| `Progression.ReachableRecordsValid` | app.py:95-103 | under a clock that never goes backwards, every record built from an empty store is active (the 8.5 rate is never used), has its gate open iff it was pressed at least twice, and caches a balance of at least 10 |
| `Progression.RunBalanceNonDecreasing` | bot.py:227-232 | from a well-formed store, over a run whose clock never goes backwards, no cached balance ever drops |

## Left out

- Persistence (`DataManager.load_data` / `save_data`, bot.py:43-79) is file I/O, JSON and ISO-8601 conversion. Saving is treated as the identity on the store. Records are therefore only those the bot builds, and a loaded record missing a required key (which raises `KeyError` in Python) is not modelled.
- Telegram plumbing is not modelled: message texts, inline keyboards, the webhook and health-check handlers, `create_app`, `init_bot` and `main`.
- `send_motivation_message`, the job-queue scheduling in `/start` and `stats_command` depend on timers and `random`. `/stats` appears only as an event that leaves the store unchanged.
- The `fees_15` / `fees_25` branch (bot.py:421-446) only displays payment instructions for an up-front fee. It appears only as a payload that leaves the store unchanged.
- The "check balance", "refresh" and "referral" buttons call the command handlers, which reply through `update.message`. For a button press that is `None`, so the reply fails. It fails only after the store has changed, so the model keeps the store effect and ignores the failed reply.
- The conversion `str(user_id)` is taken as given: user ids are strings in the model.
- Each handler reads `datetime.now()` several times, microseconds apart. The model uses one `now` per call.
- Float rounding is not modelled (e.g. `8.5 * 1.2` is exactly 10.2 here).
- Concurrent handling of async handlers is not modelled. Events are handled one at a time.
- Counters are `nat`: only a loaded file could hold a negative count, and loading is left out.

=== FILE: earnings.dfy ===
/**
 * The earnings formula: a fabricated balance that grows linearly with the
 * hours since the record was created, at a higher rate while the record is
 * active, plus a fixed bonus per referral, capped at a ceiling.
 * Python floats are idealised as exact reals.
 */
module Earnings {
  import opened UserRecords

  const SecondsPerHour: real := 3600.0
  const BaseHourlyRate: real := 8.5
  /** Multiplier applied to the hourly rate while the record is active. */
  const ActivityBonus: real := 1.2
  /** Amount credited per referral. */
  const ReferralBonus: real := 2.0
  /** Ceiling of the computed earnings. */
  const EarningsCap: real := 999.99
  /** Earnings below which a withdrawal request is turned away. */
  const WithdrawalMinimum: real := 100.0

  /** Elapsed hours from `start` to `now`; negative when `now` precedes `start` (no clamp). */
  function HoursBetween(start: Instant, now: Instant): (h: real)
    ensures h * SecondsPerHour == now - start
    ensures h >= 0.0 <==> start <= now
  {
    (now - start) / SecondsPerHour
  }

  /** Hourly accrual rate; the activity bonus makes it 10.2 instead of 8.5. */
  function HourlyRate(active: bool): (rate: real)
    ensures rate >= BaseHourlyRate
    ensures active <==> rate > BaseHourlyRate
    ensures active ==> rate == 10.2
  {
    if active then BaseHourlyRate * ActivityBonus else BaseHourlyRate
  }

  /** The uncapped amount: welcome balance, mining over `hours`, referral bonus. */
  function Accrued(hours: real, active: bool, referrals: nat): real {
    WelcomeBalance + hours * HourlyRate(active) + referrals as real * ReferralBonus
  }

  /** The uncapped amount, limited to the cap. */
  function EarningsFor(hours: real, active: bool, referrals: nat): (e: real)
    ensures e <= EarningsCap
    ensures e <= Accrued(hours, active, referrals)
    ensures e == EarningsCap || e == Accrued(hours, active, referrals)
  {
    var raw := Accrued(hours, active, referrals);
    if raw <= EarningsCap then raw else EarningsCap
  }

  /** Earnings of record `r` at instant `now`. */
  function RecordEarnings(r: Record, now: Instant): real {
    EarningsFor(HoursBetween(r.startTime, now), r.isActive, r.ReferralCount())
  }

  /** Waiting longer never lowers the earnings (the rate is positive, so no `hours >= 0` is needed). */
  lemma EarningsMonotoneInHours(h1: real, h2: real, active: bool, referrals: nat)
    requires h1 <= h2
    ensures EarningsFor(h1, active, referrals) <= EarningsFor(h2, active, referrals)
  {
    var rate := HourlyRate(active);
    assert h1 * rate <= h2 * rate by {
      assert (h2 - h1) * rate >= 0.0;
    }
  }

  /** More referrals never lower the earnings. */
  lemma EarningsMonotoneInReferrals(hours: real, active: bool, n1: nat, n2: nat)
    requires n1 <= n2
    ensures EarningsFor(hours, active, n1) <= EarningsFor(hours, active, n2)
  {
  }

  /** Below the cap, one more referral adds exactly the referral bonus. */
  lemma OneReferralAddsBonus(hours: real, active: bool, n: nat)
    requires Accrued(hours, active, n + 1) <= EarningsCap
    ensures EarningsFor(hours, active, n + 1) == EarningsFor(hours, active, n) + ReferralBonus
  {
  }

  /** For non-negative elapsed time, an active record earns at least as much as an inactive one. */
  lemma ActiveEarnsAtLeastInactive(hours: real, referrals: nat)
    requires hours >= 0.0
    ensures EarningsFor(hours, true, referrals) >= EarningsFor(hours, false, referrals)
  {
    assert hours * HourlyRate(true) >= hours * HourlyRate(false) by {
      assert hours * (HourlyRate(true) - HourlyRate(false)) >= 0.0;
    }
  }

  /** After any positive time, and while the inactive value is below the cap, the bonus is strict. */
  lemma ActiveEarnsStrictlyMore(hours: real, referrals: nat)
    requires hours > 0.0
    requires EarningsFor(hours, false, referrals) < EarningsCap
    ensures EarningsFor(hours, true, referrals) > EarningsFor(hours, false, referrals)
  {
    assert hours * HourlyRate(true) > hours * HourlyRate(false) by {
      assert hours * (HourlyRate(true) - HourlyRate(false)) > 0.0;
    }
  }

  /** With the clock not behind the record's start, the earnings never drop below the welcome balance. */
  lemma EarningsAtLeastWelcome(r: Record, now: Instant)
    requires r.startTime <= now
    ensures WelcomeBalance <= RecordEarnings(r, now)
  {
    var h := HoursBetween(r.startTime, now);
    assert h * HourlyRate(r.isActive) >= 0.0;
  }

  /** A record's earnings never decrease as the clock advances. */
  lemma RecordEarningsMonotone(r: Record, t1: Instant, t2: Instant)
    requires t1 <= t2
    ensures RecordEarnings(r, t1) <= RecordEarnings(r, t2)
  {
    EarningsMonotoneInHours(HoursBetween(r.startTime, t1), HoursBetween(r.startTime, t2), r.isActive, r.ReferralCount());
  }

  /**
   * Elapsed time is not clamped: a record whose start lies one hour after
   * `now` (a clock that went backwards) shows 10 - 10.2 = -0.2, below the
   * welcome balance.
   */
  lemma NegativeElapsedTimeNotClamped(r: Record, now: Instant)
    requires r.startTime == now + SecondsPerHour
    requires r.isActive && r.ReferralCount() == 0
    ensures RecordEarnings(r, now) == -0.2
    ensures RecordEarnings(r, now) < WelcomeBalance
  {
    assert HoursBetween(r.startTime, now) == -1.0;
  }

  /** Eleven active hours with no referrals give 10 + 11 * 10.2 = 122.2: withdrawal is reachable. */
  lemma ElevenActiveHoursReachMinimum(r: Record, now: Instant)
    requires r.startTime == now - 11.0 * SecondsPerHour
    requires r.isActive && r.ReferralCount() == 0
    ensures RecordEarnings(r, now) == 122.2
    ensures RecordEarnings(r, now) >= WithdrawalMinimum
  {
    assert HoursBetween(r.startTime, now) == 11.0;
  }

  /** One active hour with no referrals gives 10 + 10.2 = 20.2: below the withdrawal minimum. */
  lemma OneActiveHourBelowMinimum(r: Record, now: Instant)
    requires r.startTime == now - SecondsPerHour
    requires r.isActive && r.ReferralCount() == 0
    ensures RecordEarnings(r, now) == 20.2
    ensures RecordEarnings(r, now) < WithdrawalMinimum
  {
    assert HoursBetween(r.startTime, now) == 1.0;
  }
}

=== FILE: handlers.dfy ===
/**
 * The command and button handlers, reduced to their effect on the store and
 * the decision each one makes. Every handler starts with get-or-create, so
 * a first-time user gets a record before anything else happens; `now` is
 * the one wall-clock reading of the call.
 */
module Handlers {
  import opened Wrappers
  import opened UserRecords
  import opened ProgressionStore
  import opened Earnings

  /** The store after a handler, together with what the handler decided. */
  datatype Reply<T> = Reply(store: Store, value: T)

  /** What `/start` shows: the membership gate, or the dashboard. */
  datatype StartScreen = MembershipGate | Dashboard

  /** What `/balance` shows: the refreshed balance and whether a withdraw button is offered. */
  datatype BalanceView = BalanceView(balance: real, withdrawOffered: bool)

  /**
   * What `/withdraw` answers. Below the minimum it states the shortfall.
   * Otherwise it demands an up-front "network fee" in crypto; the bot never
   * pays anything out, and no state changes beyond the attempt counter.
   */
  datatype WithdrawReply = BelowMinimum(shortfall: real) | FeeDemand(shown: real)

  /** What a press of the "I joined - verify" button answers. */
  datatype GateReply = NotDetected(attempt: nat) | Confirmed

  /** Earnings of `id` at `now`, after get-or-create; a first-time user sees exactly the welcome balance. */
  function CalculateEarnings(s: Store, id: UserId, now: Instant): (res: Reply<real>)
    ensures OnlyTouches(s, res.store, id) && res.store[id] == RecordOf(s, id, now)
    ensures res.value == RecordEarnings(RecordOf(s, id, now), now)
    ensures res.value <= EarningsCap
    ensures id !in s ==> res.value == WelcomeBalance
  {
    var l := GetUserData(s, id, now);
    Reply(l.store, RecordEarnings(l.record, now))
  }

  /** Marks `id` active as of `now`; no other field and no other user changes. */
  function UpdateUserActivity(s: Store, id: UserId, now: Instant): (s': Store)
    ensures OnlyTouches(s, s', id)
    ensures s'[id].isActive && s'[id].lastUpdate == now
    ensures s'[id].(isActive := RecordOf(s, id, now).isActive, lastUpdate := RecordOf(s, id, now).lastUpdate)
            == RecordOf(s, id, now)
  {
    var l := GetUserData(s, id, now);
    l.store[id := l.record.(lastUpdate := now, isActive := true)]
  }

  /** The membership check: the stored flag, absent read as false; it never consults the channel. */
  function CheckChannelMembership(s: Store, id: UserId, now: Instant): (res: Reply<bool>)
    ensures OnlyTouches(s, res.store, id) && res.store[id] == RecordOf(s, id, now)
    ensures res.value <==> id in s && s[id].channelJoined == Some(true)
  {
    var l := GetUserData(s, id, now);
    Reply(l.store, l.record.HasJoined())
  }

  /** `/start`: a closed gate shows the gate screen; an open one marks the user active and shows the dashboard. */
  function StartCommand(s: Store, id: UserId, now: Instant): (res: Reply<StartScreen>)
    ensures OnlyTouches(s, res.store, id)
    ensures res.value == Dashboard <==> RecordOf(s, id, now).HasJoined()
    ensures res.value == MembershipGate ==> res.store[id] == RecordOf(s, id, now)
    ensures res.value == Dashboard ==>
      res.store[id] == RecordOf(s, id, now).(isActive := true, lastUpdate := now)
  {
    var gate := CheckChannelMembership(s, id, now);
    if !gate.value then Reply(gate.store, MembershipGate)
    else Reply(UpdateUserActivity(gate.store, id, now), Dashboard)
  }

  /**
   * `/balance` (and the "check balance" / "refresh" buttons): computes the
   * earnings with the activity flag as it was, then marks the user active
   * and caches those earnings as the balance. The withdraw button is
   * offered iff the earnings reach the minimum.
   */
  function BalanceCommand(s: Store, id: UserId, now: Instant): (res: Reply<BalanceView>)
    ensures OnlyTouches(s, res.store, id)
    ensures res.value.balance == RecordEarnings(RecordOf(s, id, now), now)
    ensures res.value.withdrawOffered <==> res.value.balance >= WithdrawalMinimum
    ensures res.store[id].balance == res.value.balance
    ensures res.store[id].isActive && res.store[id].lastUpdate == now
    ensures var c := RecordOf(s, id, now);
      res.store[id].(balance := c.balance, isActive := c.isActive, lastUpdate := c.lastUpdate) == c
  {
    var e := CalculateEarnings(s, id, now);
    var s1 := UpdateUserActivity(e.store, id, now);
    var s2 := s1[id := s1[id].(balance := e.value)];
    Reply(s2, BalanceView(e.value, e.value >= WithdrawalMinimum))
  }

  /**
   * `/withdraw`: counts the attempt whatever the outcome, then turns the
   * request away iff the earnings are below the minimum.
   */
  function WithdrawCommand(s: Store, id: UserId, now: Instant): (res: Reply<WithdrawReply>)
    ensures OnlyTouches(s, res.store, id)
    ensures res.store[id].withdrawalAttempts == RecordOf(s, id, now).withdrawalAttempts + 1
    ensures res.store[id].(withdrawalAttempts := RecordOf(s, id, now).withdrawalAttempts)
            == RecordOf(s, id, now)
    ensures res.value.BelowMinimum? <==> RecordEarnings(RecordOf(s, id, now), now) < WithdrawalMinimum
    ensures res.value.BelowMinimum? ==>
      res.value.shortfall > 0.0 &&
      res.value.shortfall + RecordEarnings(RecordOf(s, id, now), now) == WithdrawalMinimum
    ensures res.value.FeeDemand? ==> res.value.shown == RecordEarnings(RecordOf(s, id, now), now)
  {
    var e := CalculateEarnings(s, id, now);
    var l := GetUserData(e.store, id, now);
    var s1 := l.store[id := l.record.(withdrawalAttempts := l.record.withdrawalAttempts + 1)];
    if e.value < WithdrawalMinimum then Reply(s1, BelowMinimum(WithdrawalMinimum - e.value))
    else Reply(s1, FeeDemand(e.value))
  }

  /** `/referral`: shows the referral count (absent read as 0); only get-or-create touches the store. */
  function ReferralCommand(s: Store, id: UserId, now: Instant): (res: Reply<nat>)
    ensures OnlyTouches(s, res.store, id) && res.store[id] == RecordOf(s, id, now)
    ensures id in s ==> res.value == s[id].ReferralCount()
    ensures id !in s ==> res.value == 0
  {
    var l := GetUserData(s, id, now);
    Reply(l.store, l.record.ReferralCount())
  }

  /** The "test referral" button: one more referral, absent read as 0; nothing else changes. */
  function AddReferral(s: Store, id: UserId, now: Instant): (res: Reply<nat>)
    ensures OnlyTouches(s, res.store, id)
    ensures res.value == RecordOf(s, id, now).ReferralCount() + 1
    ensures res.store[id].referrals == Some(res.value)
    ensures res.store[id].(referrals := RecordOf(s, id, now).referrals) == RecordOf(s, id, now)
  {
    var l := GetUserData(s, id, now);
    var n := l.record.ReferralCount() + 1;
    Reply(l.store[id := l.record.(referrals := Some(n))], n)
  }

  /**
   * The "I joined - verify" button: counts the press (absent read as 0) and
   * opens the gate once the count reaches the threshold. No membership is
   * looked up; an open gate is never closed again.
   */
  function CheckMembership(s: Store, id: UserId, now: Instant): (res: Reply<GateReply>)
    ensures OnlyTouches(s, res.store, id)
    ensures res.store[id].membershipAttempts == Some(RecordOf(s, id, now).GateAttempts() + 1)
    ensures res.value == Confirmed <==> res.store[id].GateAttempts() >= MembershipThreshold
    ensures res.value.NotDetected? ==> res.value.attempt == res.store[id].GateAttempts()
    ensures res.store[id].GateAttempts() >= MembershipThreshold ==> res.store[id].channelJoined == Some(true)
    ensures res.store[id].GateAttempts() < MembershipThreshold ==>
      res.store[id].channelJoined == RecordOf(s, id, now).channelJoined
    ensures RecordOf(s, id, now).HasJoined() ==> res.store[id].HasJoined()
    ensures var c := RecordOf(s, id, now);
      res.store[id].(membershipAttempts := c.membershipAttempts, channelJoined := c.channelJoined) == c
  {
    var l := GetUserData(s, id, now);
    var attempts := l.record.GateAttempts() + 1;
    var counted := l.record.(membershipAttempts := Some(attempts));
    if attempts >= MembershipThreshold then
      Reply(l.store[id := counted.(channelJoined := Some(true))], Confirmed)
    else
      Reply(l.store[id := counted], NotDetected(attempts))
  }

  /** Button payloads whose branch touches the store. */
  const StoreButtons: set<string> :=
    {"check_balance", "refresh_balance", "boost_earnings", "referral", "add_referral", "check_membership"}

  /**
   * Dispatch of an inline-button press by its payload. The fee, copy-link
   * and unknown payloads only show text (or nothing) and leave the store alone.
   */
  function ButtonCallback(s: Store, id: UserId, now: Instant, data: string): (s': Store)
    ensures data in StoreButtons ==> OnlyTouches(s, s', id)
    ensures data !in StoreButtons ==> s' == s
  {
    if data == "check_balance" || data == "refresh_balance" then BalanceCommand(s, id, now).store
    else if data == "boost_earnings" then UpdateUserActivity(s, id, now)
    else if data == "referral" then ReferralCommand(s, id, now).store
    else if data == "add_referral" then AddReferral(s, id, now).store
    else if data == "check_membership" then CheckMembership(s, id, now).store
    else s
  }

  /** Which handler each store-touching payload runs, stated by the effect on the presser's record. */
  lemma ButtonCallbackDispatch(s: Store, id: UserId, now: Instant, data: string)
    ensures var s' := ButtonCallback(s, id, now, data); var c := RecordOf(s, id, now);
      && (data == "add_referral" ==>
            s'[id].ReferralCount() == c.ReferralCount() + 1 && s'[id].(referrals := c.referrals) == c)
      && (data == "check_membership" ==>
            && s'[id].GateAttempts() == c.GateAttempts() + 1
            && s'[id].withdrawalAttempts == c.withdrawalAttempts
            && (s'[id].GateAttempts() >= MembershipThreshold ==> s'[id].HasJoined())
            && s'[id].(membershipAttempts := c.membershipAttempts, channelJoined := c.channelJoined) == c)
      && (data == "boost_earnings" ==> s'[id] == c.(isActive := true, lastUpdate := now))
      && (data == "check_balance" || data == "refresh_balance" ==>
            && s'[id].balance == RecordEarnings(c, now) && s'[id].isActive && s'[id].lastUpdate == now
            && s'[id].(balance := c.balance, isActive := c.isActive, lastUpdate := c.lastUpdate) == c)
      && (data == "referral" ==> s'[id] == c)
  {
  }

  /**
   * The gate from a record with no presses yet: the first press leaves it
   * closed, the second opens it, the third keeps it open with a count of 3.
   */
  lemma GateOpensOnSecondPress(s: Store, id: UserId, t1: Instant, t2: Instant, t3: Instant)
    requires id in s ==> s[id].membershipAttempts == None && !s[id].HasJoined()
    ensures var p1 := CheckMembership(s, id, t1);
      && p1.value == NotDetected(1) && !p1.store[id].HasJoined()
      && var p2 := CheckMembership(p1.store, id, t2);
      && p2.value == Confirmed && p2.store[id].HasJoined()
      && var p3 := CheckMembership(p2.store, id, t3);
      && p3.value == Confirmed && p3.store[id].HasJoined() && p3.store[id].GateAttempts() == 3
  {
  }
}

=== FILE: progression.dfy ===
/**
 * Whole-run properties: the bot as a transition system over the store,
 * driven by a sequence of (user, instant, command) events. Counters only
 * grow, the activity and gate flags never switch off, and, under a clock
 * that never goes backwards, every reachable record stays well formed and
 * its cached balance never exceeds what it could be recomputed to.
 */
module Progression {
  import opened Wrappers
  import opened UserRecords
  import opened ProgressionStore
  import opened Earnings
  import opened Handlers

  /** An incoming command, as the handler table routes it. */
  datatype Command = Start | Balance | Withdraw | Referral | Stats | Button(data: string)

  /** One delivered command: who sent it, when, and what it was. */
  datatype Event = Event(user: UserId, now: Instant, command: Command)

  /** The store after one event; `/stats` only reads the number of users. */
  function Step(s: Store, e: Event): Store {
    match e.command
    case Start => StartCommand(s, e.user, e.now).store
    case Balance => BalanceCommand(s, e.user, e.now).store
    case Withdraw => WithdrawCommand(s, e.user, e.now).store
    case Referral => ReferralCommand(s, e.user, e.now).store
    case Stats => s
    case Button(data) => ButtonCallback(s, e.user, e.now, data)
  }

  /** The store after a sequence of events, handled one at a time. */
  function Run(s: Store, events: seq<Event>): Store
    decreases |events|
  {
    if |events| == 0 then s else Run(Step(s, events[0]), events[1..])
  }

  /** Each event's instant is no earlier than the one before it, starting from `clock`. */
  ghost predicate Chronological(clock: Instant, events: seq<Event>)
    decreases |events|
  {
    |events| == 0 || (clock <= events[0].now && Chronological(events[0].now, events[1..]))
  }

  /** The clock after the events: the last event's instant, or `clock` if there is none. */
  function Latest(clock: Instant, events: seq<Event>): Instant
    decreases |events|
  {
    if |events| == 0 then clock else Latest(events[0].now, events[1..])
  }

  /** `r'` is a later state of `r`: same accrual anchor, counters not lower, flags not switched off. */
  ghost predicate Evolves(r: Record, r': Record) {
    && r'.startTime == r.startTime
    && r.withdrawalAttempts <= r'.withdrawalAttempts
    && r.ReferralCount() <= r'.ReferralCount()
    && r.GateAttempts() <= r'.GateAttempts()
    && (r.isActive ==> r'.isActive)
    && (r.HasJoined() ==> r'.HasJoined())
  }

  /** No user disappears and every record evolves. */
  ghost predicate Grows(s: Store, s': Store) {
    && s.Keys <= s'.Keys
    && forall k :: k in s ==> Evolves(s[k], s'[k])
  }

  lemma GrowsTransitive(s1: Store, s2: Store, s3: Store)
    requires Grows(s1, s2) && Grows(s2, s3)
    ensures Grows(s1, s3)
  {
  }

  /** A handler that changes only `id`, and evolves its record, lets the store grow. */
  lemma TouchGrows(s: Store, s': Store, id: UserId, now: Instant)
    requires OnlyTouches(s, s', id)
    requires Evolves(RecordOf(s, id, now), s'[id])
    ensures Grows(s, s')
  {
    forall k | k in s
      ensures Evolves(s[k], s'[k])
    {
    }
  }

  /** Whatever the command, user or instant, one event only lets the store grow. */
  lemma StepGrows(s: Store, e: Event)
    ensures Grows(s, Step(s, e))
  {
    var id, now := e.user, e.now;
    match e.command
    case Start =>
      TouchGrows(s, Step(s, e), id, now);
    case Balance =>
      TouchGrows(s, Step(s, e), id, now);
    case Withdraw =>
      TouchGrows(s, Step(s, e), id, now);
    case Referral =>
      TouchGrows(s, Step(s, e), id, now);
    case Stats =>
    case Button(data) =>
      if data == "check_balance" || data == "refresh_balance" {
        TouchGrows(s, BalanceCommand(s, id, now).store, id, now);
      } else if data == "boost_earnings" {
        TouchGrows(s, UpdateUserActivity(s, id, now), id, now);
      } else if data == "referral" {
        TouchGrows(s, ReferralCommand(s, id, now).store, id, now);
      } else if data == "add_referral" {
        TouchGrows(s, AddReferral(s, id, now).store, id, now);
      } else if data == "check_membership" {
        TouchGrows(s, CheckMembership(s, id, now).store, id, now);
      }
  }

  /** Over any sequence of events, the store only grows. */
  lemma {:induction false} RunGrows(s: Store, events: seq<Event>)
    ensures Grows(s, Run(s, events))
    decreases |events|
  {
    if |events| > 0 {
      var s1 := Step(s, events[0]);
      StepGrows(s, events[0]);
      RunGrows(s1, events[1..]);
      GrowsTransitive(s, s1, Run(s1, events[1..]));
    }
  }

  /**
   * A record as the bot itself can produce it, seen at `clock`: touched no
   * later than `clock`, active, with referral and gate fields present, the
   * gate open exactly when it was pressed at least twice, and a cached
   * balance between the welcome amount and the earnings recomputed now.
   */
  ghost predicate Valid(r: Record, clock: Instant) {
    && r.startTime <= r.lastUpdate <= clock
    && r.isActive
    && r.referrals.Some? && r.channelJoined.Some?
    && (r.HasJoined() <==> r.GateAttempts() >= MembershipThreshold)
    && WelcomeBalance <= r.balance <= RecordEarnings(r, clock)
  }

  ghost predicate ValidStore(s: Store, clock: Instant) {
    forall k :: k in s ==> Valid(s[k], clock)
  }

  /** Validity survives the clock moving forward. */
  lemma ValidLater(r: Record, clock: Instant, later: Instant)
    requires Valid(r, clock) && clock <= later
    ensures Valid(r, later)
  {
    RecordEarningsMonotone(r, clock, later);
  }

  lemma StoreValidLater(s: Store, clock: Instant, later: Instant)
    requires ValidStore(s, clock) && clock <= later
    ensures ValidStore(s, later)
  {
    forall k | k in s
      ensures Valid(s[k], later)
    {
      ValidLater(s[k], clock, later);
    }
  }

  /** The record get-or-create returns is valid at any instant not behind the store's clock. */
  lemma RecordOfValid(s: Store, id: UserId, clock: Instant, now: Instant)
    requires ValidStore(s, clock) && clock <= now
    ensures Valid(RecordOf(s, id, now), now)
  {
    if id in s {
      ValidLater(s[id], clock, now);
    } else {
      EarningsAtLeastWelcome(NewRecord(now), now);
    }
  }

  /** Users other than `id` stay valid when the clock moves to `now`. */
  lemma OthersStayValid(s: Store, s': Store, id: UserId, clock: Instant, now: Instant)
    requires ValidStore(s, clock) && clock <= now
    requires OnlyTouches(s, s', id) && Valid(s'[id], now)
    ensures ValidStore(s', now)
  {
    forall k | k in s'
      ensures Valid(s'[k], now)
    {
      if k != id {
        ValidLater(s[k], clock, now);
      }
    }
  }

  /** `/balance` keeps a valid record valid: the cached value is the earnings just computed. */
  lemma BalanceKeepsValid(s: Store, id: UserId, clock: Instant, now: Instant)
    requires ValidStore(s, clock) && clock <= now
    ensures ValidStore(BalanceCommand(s, id, now).store, now)
  {
    var c := RecordOf(s, id, now);
    RecordOfValid(s, id, clock, now);
    EarningsAtLeastWelcome(c, now);
    var s' := BalanceCommand(s, id, now).store;
    assert RecordEarnings(s'[id], now) == RecordEarnings(c, now);
    OthersStayValid(s, s', id, clock, now);
  }

  /** A referral keeps a valid record valid: the earnings bound only rises. */
  lemma AddReferralKeepsValid(s: Store, id: UserId, clock: Instant, now: Instant)
    requires ValidStore(s, clock) && clock <= now
    ensures ValidStore(AddReferral(s, id, now).store, now)
  {
    var c := RecordOf(s, id, now);
    RecordOfValid(s, id, clock, now);
    var s' := AddReferral(s, id, now).store;
    EarningsMonotoneInReferrals(HoursBetween(c.startTime, now), c.isActive, c.ReferralCount(), s'[id].ReferralCount());
    OthersStayValid(s, s', id, clock, now);
  }

  /** Every handler keeps the store valid when the clock does not go backwards. */
  lemma StepKeepsValid(s: Store, clock: Instant, e: Event)
    requires ValidStore(s, clock) && clock <= e.now
    ensures ValidStore(Step(s, e), e.now)
  {
    var id, now := e.user, e.now;
    RecordOfValid(s, id, clock, now);
    match e.command
    case Start =>
      OthersStayValid(s, Step(s, e), id, clock, now);
    case Balance =>
      BalanceKeepsValid(s, id, clock, now);
    case Withdraw =>
      OthersStayValid(s, Step(s, e), id, clock, now);
    case Referral =>
      OthersStayValid(s, Step(s, e), id, clock, now);
    case Stats =>
      StoreValidLater(s, clock, now);
    case Button(data) =>
      if data == "check_balance" || data == "refresh_balance" {
        BalanceKeepsValid(s, id, clock, now);
      } else if data == "add_referral" {
        AddReferralKeepsValid(s, id, clock, now);
      } else if data in StoreButtons {
        OthersStayValid(s, Step(s, e), id, clock, now);
      } else {
        StoreValidLater(s, clock, now);
      }
  }

  /** Over a chronological run, validity is kept. */
  lemma {:induction false} RunKeepsValid(s: Store, clock: Instant, events: seq<Event>)
    requires ValidStore(s, clock) && Chronological(clock, events)
    ensures ValidStore(Run(s, events), Latest(clock, events))
    decreases |events|
  {
    if |events| > 0 {
      StepKeepsValid(s, clock, events[0]);
      RunKeepsValid(Step(s, events[0]), events[0].now, events[1..]);
    }
  }

  /**
   * Every record the bot builds from an empty store, under a clock that
   * never goes backwards, is active (the 8.5 inactive rate is never used),
   * has its gate open exactly after two presses, and caches a balance of
   * at least the welcome amount.
   */
  lemma ReachableRecordsValid(clock: Instant, events: seq<Event>, id: UserId)
    requires Chronological(clock, events)
    requires id in Run(map[], events)
    ensures var r := Run(map[], events)[id];
      && r.isActive
      && (r.HasJoined() <==> r.GateAttempts() >= MembershipThreshold)
      && WelcomeBalance <= r.balance <= RecordEarnings(r, Latest(clock, events))
  {
    RunKeepsValid(map[], clock, events);
  }

  /** No user of `s` is lost and none of their cached balances is lower in `s'`. */
  ghost predicate BalancesKept(s: Store, s': Store) {
    forall k :: k in s ==> k in s' && s[k].balance <= s'[k].balance
  }

  /** The cached balance of every existing user does not drop over one step of a chronological run. */
  lemma StepBalanceNonDecreasing(s: Store, clock: Instant, e: Event)
    requires ValidStore(s, clock) && clock <= e.now
    ensures BalancesKept(s, Step(s, e))
  {
    var id := e.user;
    StepGrows(s, e);
    if id in s {
      RecordEarningsMonotone(s[id], clock, e.now);
    }
  }

  /** Over a chronological run from a valid store, no cached balance ever drops. */
  lemma {:induction false} RunBalanceNonDecreasing(s: Store, clock: Instant, events: seq<Event>)
    requires ValidStore(s, clock) && Chronological(clock, events)
    ensures BalancesKept(s, Run(s, events))
    decreases |events|
  {
    RunGrows(s, events);
    if |events| > 0 {
      var s1 := Step(s, events[0]);
      StepBalanceNonDecreasing(s, clock, events[0]);
      StepGrows(s, events[0]);
      StepKeepsValid(s, clock, events[0]);
      RunBalanceNonDecreasing(s1, events[0].now, events[1..]);
    }
  }
}

=== FILE: progression_store.dfy ===
/** The keyed record store and its get-or-create accessor. */
module ProgressionStore {
  import opened Wrappers
  import opened UserRecords

  /** All user records, keyed by user id. */
  type Store = map<UserId, Record>

  /** What get-or-create hands back: the (possibly extended) store and the record. */
  datatype Lookup = Lookup(store: Store, record: Record)

  /** The record of `id` as get-or-create sees it at `now`. */
  function RecordOf(s: Store, id: UserId, now: Instant): Record {
    if id in s then s[id] else NewRecord(now)
  }

  /** `s'` holds a record for `id` and agrees with `s` on every other user. */
  ghost predicate OnlyTouches(s: Store, s': Store, id: UserId) {
    && s'.Keys == s.Keys + {id}
    && forall k :: k in s && k != id ==> s'[k] == s[k]
  }

  /**
   * Get-or-create: a missing id gets the default record (welcome balance,
   * both timestamps `now`, active, no withdrawals, zero referrals, gate
   * closed, no gate presses); an existing id is returned as stored and the
   * store is left alone.
   */
  function GetUserData(s: Store, id: UserId, now: Instant): (res: Lookup)
    ensures OnlyTouches(s, res.store, id)
    ensures res.store[id] == res.record
    ensures id in s ==> res.store == s && res.record == s[id]
    ensures id !in s ==>
      && res.record.balance == WelcomeBalance
      && res.record.startTime == now && res.record.lastUpdate == now
      && res.record.isActive
      && res.record.withdrawalAttempts == 0
      && res.record.referrals == Some(0)
      && res.record.channelJoined == Some(false)
      && res.record.membershipAttempts == None
  {
    if id in s then Lookup(s, s[id])
    else Lookup(s[id := NewRecord(now)], NewRecord(now))
  }

  /** A second get-or-create, at any later instant, changes nothing and returns the same record. */
  lemma GetUserDataIdempotent(s: Store, id: UserId, now: Instant, later: Instant)
    ensures GetUserData(GetUserData(s, id, now).store, id, later) == GetUserData(s, id, now)
  {
  }
}

=== FILE: user_records.dfy ===
/**
 * The per-user record of the bot: a flat key/value entry holding the cached
 * balance, the accrual anchor, the activity flag and the progression counters.
 */
module UserRecords {
  import opened Wrappers

  /** The store key: the decimal text of the Telegram user id. */
  type UserId = string

  /** A wall-clock instant, in seconds. */
  type Instant = real

  /** Balance a new record starts with, and the constant term of the earnings. */
  const WelcomeBalance: real := 10.0

  /** Number of "verify" presses after which the membership gate opens. */
  const MembershipThreshold: nat := 2

  /**
   * One user's entry. The three `Option` fields are the ones the bot reads
   * with a default (`referrals` as 0, `channelJoined` as false,
   * `membershipAttempts` as 0); a record made by get-or-create has no
   * `membershipAttempts` until the first gate press.
   */
  datatype Record = Record(
    balance: real,
    startTime: Instant,
    lastUpdate: Instant,
    isActive: bool,
    withdrawalAttempts: nat,
    referrals: Option<nat>,
    channelJoined: Option<bool>,
    membershipAttempts: Option<nat>)
  {
    /** Referral count, absent read as 0. */
    function ReferralCount(): nat {
      referrals.GetOr(0)
    }

    /** Gate presses so far, absent read as 0. */
    function GateAttempts(): nat {
      membershipAttempts.GetOr(0)
    }

    /** Whether the membership gate is open, absent read as false. */
    predicate HasJoined() {
      channelJoined.GetOr(false)
    }
  }

  /** The entry get-or-create stores for a user seen for the first time at `now`. */
  function NewRecord(now: Instant): Record {
    Record(WelcomeBalance, now, now, true, 0, Some(0), Some(false), None)
  }
}

=== FILE: wrappers.dfy ===
/** Optional values, for the record fields the bot reads with a default. */
module Wrappers {

  /** A field that may be absent from a user record. */
  datatype Option<+T> = None | Some(value: T) {

    /** The carried value, or `default` when the field is absent. */
    function GetOr(default: T): T {
      match this
      case Some(v) => v
      case None => default
    }
  }
}
